=== FILE: README.md ===
# Cloud Foundry server credentials and cloud-space lookup

A Dafny model of two pieces of the Cloud Foundry Eclipse server plugin's core.

- **`ServerCredentialsStore`** is a per-server credential cache over Eclipse secure storage. It loads the username and password lazily, once, and caches them. Setters load first, so a later load cannot clobber a set value. `flush(newId)` rebinds the store to another server id: it deletes the old id's node and writes the cached credentials under the new one. Any storage fault closes a one-way latch that disables the backend for good and logs the error once.
- **`CloudSpaceServerLookup`** resolves a server's partly known organisation/space pair against the spaces discovered on the platform. It also holds the rules that reclassify faults: an I/O-caused runtime fault becomes "Unable to communicate with server", client faults become core errors, and a core error is rewritten with the platform's validation message when one can be extracted.

## Layout

- `wrappers.dfy`, module `Wrappers`: `Option`, standing for nullable references.
- `credentials_store.dfy`, module `CredentialsStore`: the store as an immutable record (`Cache`, the object's fields) plus the backend (`Backend`). The backend holds its nodes, a fault oracle and a trace of events. Every operation is a pure transition function.
- `credentials_store_properties.dfy`, module `CredentialsStoreProperties`: the calls as a datatype, runs of arbitrary call sequences, the read-once / log-once invariant, and the ordering, round-trip and migration lemmas for `flush`.
- `space_lookup.dfy`, module `SpaceLookup`: the error datatypes, the catalogue, the fault reclassification, the two remote sessions, and `getCloudSpace`.
- `space_lookup_properties.dfy`, module `SpaceLookupProperties`: the case analysis of `getCloudSpace` over raw remote outcomes, and the rules for logging and rewriting.

### Modelling choices

- **Backend.** The secure-storage backend is a map from server id to a node of properties. The node name in the source is the slash-encoded id (`EncodingUtils.encodeSlashes`). That encoding is taken as injective, so nodes are keyed by the id itself.
- **Faults.** Which `get`/`put` raises a `StorageException` is set by an oracle: the set of trace positions at which the access issued there fails. Quantifying over that set covers every fault schedule. Only `get` and `put` can fault; obtaining a node and `removeNode` are taken never to fail, and a failed `put` is taken to store nothing (both are listed under "Left out").
- **Counters.** The once-only read and once-only log are stated over the event trace (`Get`, `Put`, `RemoveNode`, `LogError`), not over ghost counters.
- **Remote calls.** Client creation, login and the listing calls are not performed. Each call's outcome (`Login`, `Listing`) is a parameter, and the calls that would be made are returned in order as `contacts`.
- **Unseen collaborators.** `CloudOrgsAndSpaces.getSpace`, `CloudErrorUtil.toCoreException` and `CloudErrorUtil.getV2ValidationErrorMessage` are given functions (`Given`). The model does not invent their matching or extraction rules.

### Where the code departs from its own documentation

- **No catalogue.** When discovery yields no catalogue (a null or empty space listing), `getCloudSpace` returns the server's unresolved descriptor and does not throw. The code does this at lines 88-90 and 102 of `CloudSpaceServerLookup.java`. The method's Javadoc says otherwise (null when no space is found). The model follows the code; see `NoCatalogueKeepsDescriptor`.
- **Throw, not null.** The Javadoc of `getCloudSpace` says null is returned when no match is found. The code throws "Expected a cloud space for <url> but none were found." instead; see `MissingSpaceFails`.

### Behaviour worth knowing

- **Which faults are reclassified.** During space discovery the code reclassifies exactly the runtime faults whose cause is an `IOException` (lines 219-231 of `CloudSpaceServerLookup.java`): it logs them as "Parse error from server response" and replaces them with "Unable to communicate with server". Every other runtime fault is rethrown; see `ListingFaultsReclassified`.
- **Flush without a load.** `flush` to the same id (or from a null id) does not load the store first. On a store that was never loaded it therefore writes nulls over the credentials persisted under that id. This is what the code does; `FlushBeforeLoadWritesNulls` states it.

## Model

| member | source | states |
|---|---|---|
| CredentialsStore.Disable | org.cloudfoundry.ide.eclipse.server.core/src/org/cloudfoundry/ide/eclipse/internal/server/core/ServerCredentialsStore.java:97-105 | Closing the latch keeps every other field and the backend nodes; an error-log entry is added exactly when the latch was open before, so repeated faults log once. |
| CredentialsStore.ReadProperty | org.cloudfoundry.ide.eclipse.server.core/src/org/cloudfoundry/ide/eclipse/internal/server/core/ServerCredentialsStore.java:130-141 | Without a usable node (latch closed or id null) the backend is not contacted and null is returned; otherwise one read is issued, and a fault closes the latch and yields null instead of the stored value. |
| CredentialsStore.Initialize | org.cloudfoundry.ide.eclipse.server.core/src/org/cloudfoundry/ide/eclipse/internal/server/core/ServerCredentialsStore.java:120-128 | An initialised store is left exactly as it is. A first call marks it initialised and loads both values; a username-read fault skips the password read and leaves both null; a password-read fault keeps the username; with no usable node both are null and the backend is untouched. |
| CredentialsStore.GetUsername | org.cloudfoundry.ide.eclipse.server.core/src/org/cloudfoundry/ide/eclipse/internal/server/core/ServerCredentialsStore.java:82-85 | The call is the load (its state is exactly the one `Initialize` leaves) and answers the username that load produced: the persisted one on a fault-free first call, the cached one with no change on later calls. |
| CredentialsStore.GetPassword | org.cloudfoundry.ide.eclipse.server.core/src/org/cloudfoundry/ide/eclipse/internal/server/core/ServerCredentialsStore.java:73-76 | The call is the load (its state is exactly the one `Initialize` leaves) and answers the password that load produced: the persisted one on a fault-free first call, the cached one with no change on later calls. |
| CredentialsStore.SetUsername | org.cloudfoundry.ide.eclipse.server.core/src/org/cloudfoundry/ide/eclipse/internal/server/core/ServerCredentialsStore.java:92-95 | Loads first, then overwrites the cached username; the backend, id, latch and password are exactly what the load left, so nothing is persisted. |
| CredentialsStore.SetPassword | org.cloudfoundry.ide.eclipse.server.core/src/org/cloudfoundry/ide/eclipse/internal/server/core/ServerCredentialsStore.java:87-90 | Loads first, then overwrites the cached password; the backend, id, latch and username are exactly what the load left, so nothing is persisted. |
| CredentialsStore.RemoveCurrentNode | org.cloudfoundry.ide.eclipse.server.core/src/org/cloudfoundry/ide/eclipse/internal/server/core/ServerCredentialsStore.java:51-54 | With a usable node (latch open, id non-null) exactly that node is removed, with one removal event; otherwise nothing happens. The cache is untouched. |
| CredentialsStore.PutProperty | org.cloudfoundry.ide.eclipse.server.core/src/org/cloudfoundry/ide/eclipse/internal/server/core/ServerCredentialsStore.java:61-63 | A write records one put event and changes only that property of that node; a faulting write changes no node. |
| CredentialsStore.Rebound | org.cloudfoundry.ide.eclipse.server.core/src/org/cloudfoundry/ide/eclipse/internal/server/core/ServerCredentialsStore.java:47-57 | A rebinding (non-null old id different from the new one) loads first and then removes the old id's node, unless the load closed the latch. Otherwise only the id changes. Either way the store ends bound to the new id. |
| CredentialsStore.WriteCache | org.cloudfoundry.ide.eclipse.server.core/src/org/cloudfoundry/ide/eclipse/internal/server/core/ServerCredentialsStore.java:59-70 | Success exactly when a node is usable and neither put faults (the oracle decides the first and second write positions); a fault answers false and closes the latch. On success the node holds the cached username and password. Nodes of other ids are untouched, and nothing happens without a node. |
| CredentialsStore.Flush | org.cloudfoundry.ide.eclipse.server.core/src/org/cloudfoundry/ide/eclipse/internal/server/core/ServerCredentialsStore.java:46-71 | flush rebinds to newId. It answers true iff newId is non-null and the latch is still open, which, once the clean-up half leaves a usable node, is exactly when neither put faults; on true the node holds the cached credentials. A rebinding writes the loaded or set credentials and deletes the old node. Otherwise nothing is loaded and whatever is cached is written. Other ids' nodes are unchanged, and a disabled store's whole backend (nodes and trace) is unchanged. |
| CredentialsStoreProperties.InitializeCounts | org.cloudfoundry.ide.eclipse.server.core/src/org/cloudfoundry/ide/eclipse/internal/server/core/ServerCredentialsStore.java:120-141 | The first load adds at most two reads and no writes or removals, and one log entry exactly when it closes the latch; later loads add nothing. |
| CredentialsStoreProperties.FlushCounts | org.cloudfoundry.ide.eclipse.server.core/src/org/cloudfoundry/ide/eclipse/internal/server/core/ServerCredentialsStore.java:46-71 | flush reads the backend only through the load of a rebinding, initialises only when rebinding, logs exactly when it closes the latch and never reopens it. |
| CredentialsStoreProperties.StepMonotone | org.cloudfoundry.ide.eclipse.server.core/src/org/cloudfoundry/ide/eclipse/internal/server/core/ServerCredentialsStore.java:73-95 | No public call reopens the latch or un-initialises the store, and none reads the backend once the store is initialised. |
| CredentialsStoreProperties.StepKeepsInv | org.cloudfoundry.ide.eclipse.server.core/src/org/cloudfoundry/ide/eclipse/internal/server/core/ServerCredentialsStore.java:97-128 | Every public call keeps the invariant: one log entry iff the latch is closed, at most two reads, and no read before initialisation. |
| CredentialsStoreProperties.RunKeepsInv | org.cloudfoundry.ide.eclipse.server.core/src/org/cloudfoundry/ide/eclipse/internal/server/core/ServerCredentialsStore.java:97-128 | The invariant holds after any sequence of public calls. |
| CredentialsStoreProperties.FreshStoreReadsOnceLogsOnce | org.cloudfoundry.ide.eclipse.server.core/src/org/cloudfoundry/ide/eclipse/internal/server/core/ServerCredentialsStore.java:97-128 | Under any fault schedule and any sequence of calls on a fresh store, the backend is read in one pass at most (two reads), and the error is logged at most once, exactly when the latch has closed. |
| CredentialsStoreProperties.InitializedNeverRereads | org.cloudfoundry.ide.eclipse.server.core/src/org/cloudfoundry/ide/eclipse/internal/server/core/ServerCredentialsStore.java:120-128 | Once initialised, no sequence of calls reads the backend again, even if the first load failed. |
| CredentialsStoreProperties.DisabledIsFinal | org.cloudfoundry.ide.eclipse.server.core/src/org/cloudfoundry/ide/eclipse/internal/server/core/ServerCredentialsStore.java:107-118 | Once the latch is closed, every sequence of calls keeps it closed and leaves the backend (nodes, trace, log) exactly as it was. |
| CredentialsStoreProperties.DisabledGettersAnswerCache | org.cloudfoundry.ide.eclipse.server.core/src/org/cloudfoundry/ide/eclipse/internal/server/core/ServerCredentialsStore.java:73-85 | With the latch closed the getters answer the in-memory value, null if it was never loaded, without contacting the backend. |
| CredentialsStoreProperties.ServerIdTracksFlush | org.cloudfoundry.ide.eclipse.server.core/src/org/cloudfoundry/ide/eclipse/internal/server/core/ServerCredentialsStore.java:78-80 | getServerId answers the id given at construction or to the last flush; no other call changes it. |
| CredentialsStoreProperties.SetUsernameThenGet | org.cloudfoundry.ide.eclipse.server.core/src/org/cloudfoundry/ide/eclipse/internal/server/core/ServerCredentialsStore.java:82-95 | After setUsername(v), getUsername answers v without touching the backend, and getPassword answers what it answered before. |
| CredentialsStoreProperties.SetPasswordThenGet | org.cloudfoundry.ide.eclipse.server.core/src/org/cloudfoundry/ide/eclipse/internal/server/core/ServerCredentialsStore.java:73-90 | After setPassword(v), getPassword answers v without touching the backend, and getUsername answers what it answered before. |
| CredentialsStoreProperties.FlushRemovesBeforeWriting | org.cloudfoundry.ide.eclipse.server.core/src/org/cloudfoundry/ide/eclipse/internal/server/core/ServerCredentialsStore.java:46-63 | Within one flush, every removal precedes every write. A rebinding whose load did not fault does remove the old id's node. |
| CredentialsStoreProperties.FlushBeforeLoadWritesNulls | org.cloudfoundry.ide.eclipse.server.core/src/org/cloudfoundry/ide/eclipse/internal/server/core/ServerCredentialsStore.java:49-63 | flush to the same (or from a null) id on a never-loaded store does not load, and on success writes nulls over what the node held. |
| CredentialsStoreProperties.FlushSecondWriteFault | org.cloudfoundry.ide.eclipse.server.core/src/org/cloudfoundry/ide/eclipse/internal/server/core/ServerCredentialsStore.java:59-70 | When the password write faults, flush answers false and closes the latch. The username write stays done and the node keeps its old password. |
| CredentialsStoreProperties.FlushThenReload | org.cloudfoundry.ide.eclipse.server.core/src/org/cloudfoundry/ide/eclipse/internal/server/core/ServerCredentialsStore.java:46-128 | Round trip: after a successful flush to id, a new store bound to id over the same nodes loads exactly the flushed username and password. |
| CredentialsStoreProperties.FlushMigrates | org.cloudfoundry.ide.eclipse.server.core/src/org/cloudfoundry/ide/eclipse/internal/server/core/ServerCredentialsStore.java:46-71 | A successful rebinding flush moves the loaded or set credentials to the new id; a reload finds them there and the old node is gone. |
| SpaceLookup.Catalogue | org.cloudfoundry.ide.eclipse.server.core/src/org/cloudfoundry/ide/eclipse/internal/server/core/spaces/CloudSpaceServerLookup.java:209-216 | No catalogue iff the listing is null or empty; otherwise the catalogue holds exactly the listed spaces. |
| SpaceLookup.ReclassifyListingFault | org.cloudfoundry.ide.eclipse.server.core/src/org/cloudfoundry/ide/eclipse/internal/server/core/spaces/CloudSpaceServerLookup.java:219-231 | A runtime fault with an I/O cause becomes the core error "Unable to communicate with server" with one parse-error log entry. Any other fault is rethrown as it is, unlogged. |
| SpaceLookup.ListOrgsAndSpaces | org.cloudfoundry.ide.eclipse.server.core/src/org/cloudfoundry/ide/eclipse/internal/server/core/spaces/CloudSpaceServerLookup.java:202-236 | One space listing is requested; a listing that returns gives the catalogue built from it and logs nothing, a listing that throws is answered exactly by the I/O reclassification (error and log). |
| SpaceLookup.ClientFaultToCore | org.cloudfoundry.ide.eclipse.server.core/src/org/cloudfoundry/ide/eclipse/internal/server/core/spaces/CloudSpaceServerLookup.java:128-137 | CloudFoundry and RestClient faults become the core error the error utility makes of them; core errors and other runtime faults pass unchanged. |
| SpaceLookup.RewriteValidation | org.cloudfoundry.ide.eclipse.server.core/src/org/cloudfoundry/ide/eclipse/internal/server/core/spaces/CloudSpaceServerLookup.java:142-149 | The error is replaced by a new one carrying the extracted validation message exactly when a message is extracted; otherwise the same error is rethrown. |
| SpaceLookup.AtBoundary | org.cloudfoundry.ide.eclipse.server.core/src/org/cloudfoundry/ide/eclipse/internal/server/core/spaces/CloudSpaceServerLookup.java:191-198 | At the outer boundary only core errors are rewritten; unchecked faults pass unchanged. |
| SpaceLookup.Session | org.cloudfoundry.ide.eclipse.server.core/src/org/cloudfoundry/ide/eclipse/internal/server/core/spaces/CloudSpaceServerLookup.java:116-151 | A client is created with the credentials and a login attempted first; a failed login ends the call there, logs nothing and yields the login's failure after the boundary rewrite. A fault of the body has client faults made core errors first, then meets the boundary. Success iff login and body succeed, and then the body's value is returned. |
| SpaceLookup.DiscoverOrgsAndSpaces | org.cloudfoundry.ide.eclipse.server.core/src/org/cloudfoundry/ide/eclipse/internal/server/core/spaces/CloudSpaceServerLookup.java:116-151 | The catalogue of the listing is returned iff login and listing succeed, after exactly create-client, login and list-spaces. A failed login stops after create-client and login, logs nothing and yields its failure after the boundary rewrite. A listing fault is reclassified, then has client faults made core errors, then meets the boundary, with the reclassification's log. |
| SpaceLookup.ListAllApps | org.cloudfoundry.ide.eclipse.server.core/src/org/cloudfoundry/ide/eclipse/internal/server/core/spaces/CloudSpaceServerLookup.java:161-200 | The application list is returned iff login and listing succeed, after exactly create-client, login and list-applications; a failed login yields its failure after the boundary rewrite; nothing is logged. |
| SpaceLookup.GetCredentials | org.cloudfoundry.ide.eclipse.server.core/src/org/cloudfoundry/ide/eclipse/internal/server/core/spaces/CloudSpaceServerLookup.java:62-69 | Credentials already held are returned unchanged; otherwise the server's username and password are used and remembered. |
| SpaceLookup.GetCloudOrgsAndSpaces | org.cloudfoundry.ide.eclipse.server.core/src/org/cloudfoundry/ide/eclipse/internal/server/core/spaces/CloudSpaceServerLookup.java:111-114 | Discovery uses the server's url and the lookup's settled credentials, and settles them; the answer is exactly that discovery's outcome. |
| SpaceLookup.GetAllOrgApps | org.cloudfoundry.ide.eclipse.server.core/src/org/cloudfoundry/ide/eclipse/internal/server/core/spaces/CloudSpaceServerLookup.java:161-170 | Listing all applications uses the server's url and the lookup's settled credentials, and settles them; the answer is exactly that application listing's outcome. |
| SpaceLookup.GetCloudSpace | org.cloudfoundry.ide.eclipse.server.core/src/org/cloudfoundry/ide/eclipse/internal/server/core/spaces/CloudSpaceServerLookup.java:79-109 | Null exactly for a server without spaces. The platform is contacted only for an unresolved descriptor, with the settled credentials, and then the lookup remembers them; otherwise the lookup is unchanged. A returned descriptor is resolved or is the server's own. A server with spaces but no descriptor fails with the no-space error. |
| SpaceLookup.Settle | org.cloudfoundry.ide.eclipse.server.core/src/org/cloudfoundry/ide/eclipse/internal/server/core/spaces/CloudSpaceServerLookup.java:102-105 | A missing descriptor raises "Expected a cloud space for <url> but none were found."; a present one is returned. |
| SpaceLookupProperties.NoSpacesMeansNull | org.cloudfoundry.ide.eclipse.server.core/src/org/cloudfoundry/ide/eclipse/internal/server/core/spaces/CloudSpaceServerLookup.java:79-82 | A server without spaces yields null, contacts nobody and leaves the lookup unchanged. |
| SpaceLookupProperties.ResolvedIsFastPath | org.cloudfoundry.ide.eclipse.server.core/src/org/cloudfoundry/ide/eclipse/internal/server/core/spaces/CloudSpaceServerLookup.java:83-85 | A descriptor that already carries a space is returned unchanged with no contact. |
| SpaceLookupProperties.FoundSpaceIsWrapped | org.cloudfoundry.ide.eclipse.server.core/src/org/cloudfoundry/ide/eclipse/internal/server/core/spaces/CloudSpaceServerLookup.java:90-99 | A non-empty listing in which the query finds the wanted pair gives a new descriptor wrapping the found space, after create-client, login and one listing, with no log. |
| SpaceLookupProperties.MissingSpaceFails | org.cloudfoundry.ide.eclipse.server.core/src/org/cloudfoundry/ide/eclipse/internal/server/core/spaces/CloudSpaceServerLookup.java:94-105 | A non-empty listing without the wanted pair raises the no-space error for the server's url. |
| SpaceLookupProperties.NoCatalogueKeepsDescriptor | org.cloudfoundry.ide.eclipse.server.core/src/org/cloudfoundry/ide/eclipse/internal/server/core/spaces/CloudSpaceServerLookup.java:88-102 | A null or empty listing returns the server's unresolved descriptor; nothing is thrown. |
| SpaceLookupProperties.LoginFailureSkipsListing | org.cloudfoundry.ide.eclipse.server.core/src/org/cloudfoundry/ide/eclipse/internal/server/core/spaces/CloudSpaceServerLookup.java:116-149 | A failed login raises the login's fault after the boundary rewrite, and no space listing is requested. |
| SpaceLookupProperties.ListingFaultsReclassified | org.cloudfoundry.ide.eclipse.server.core/src/org/cloudfoundry/ide/eclipse/internal/server/core/spaces/CloudSpaceServerLookup.java:128-149 | An I/O-caused listing fault surfaces as the communication error (after the boundary) with one parse-error log entry. A client fault surfaces as its converted core error. Any other runtime fault escapes unchanged and unlogged. |
| SpaceLookupProperties.BoundaryReplacesOnlyWithMessage | org.cloudfoundry.ide.eclipse.server.core/src/org/cloudfoundry/ide/eclipse/internal/server/core/spaces/CloudSpaceServerLookup.java:142-149 | The boundary changes a failure only by replacing a core error with one carrying the extracted validation message, and never turns a core error into an unchecked one or back. |
| SpaceLookupProperties.DiscoveryLogsOnlyCommunicationErrors | org.cloudfoundry.ide.eclipse.server.core/src/org/cloudfoundry/ide/eclipse/internal/server/core/spaces/CloudSpaceServerLookup.java:116-151 | Discovery logs at most once, and it logs exactly when the login succeeded and the listing threw with an I/O cause; the result is then the communication error. |
| SpaceLookupProperties.ResolutionKeepsNames | org.cloudfoundry.ide.eclipse.server.core/src/org/cloudfoundry/ide/eclipse/internal/server/core/spaces/CloudSpaceServerLookup.java:90-99 | If the catalogue query answers only spaces with the names asked for, every returned descriptor has the organisation and space names of the server's own descriptor. |
| SpaceLookupProperties.GetCredentialsIdempotent | org.cloudfoundry.ide.eclipse.server.core/src/org/cloudfoundry/ide/eclipse/internal/server/core/spaces/CloudSpaceServerLookup.java:62-69 | Settling credentials twice is the same as settling them once. |
| SpaceLookupProperties.AllAppsFaults | org.cloudfoundry.ide.eclipse.server.core/src/org/cloudfoundry/ide/eclipse/internal/server/core/spaces/CloudSpaceServerLookup.java:178-198 | Application-listing faults are not reclassified by cause: client faults become converted core errors, others escape; nothing is logged. |

## Left out

- Concurrency: `initialize` is `synchronized` and the latch is an `AtomicBoolean` compare-and-set. The model is sequential, so "exactly one initialisation pass" and "the error is logged once" are stated for sequential runs.
- The Eclipse secure-storage API (`SecurePreferencesFactory`, node creation, `encodeSlashes`) is abstracted to a map of nodes with an injective id encoding. Persisting secure storage to disk is not modelled.
- Log messages are modelled as events carrying the relevant server id or fault. Their severity, plugin id and exact wording are not modelled.
- `CloudFoundryServerBehaviour.createClient`, `CloudFoundryLoginHandler.login` (a retry loop with 5 attempts 5000 ms apart) and `updateProxyInClient` are network calls. The login is an abstract outcome; faults of client creation and proxy setup are not modelled.
- `operations.getSpaces()` and `operations.getApplications()` are abstract outcomes: a possibly null list or an unchecked exception.
- `CloudOrgsAndSpaces.getSpace`, `CloudErrorUtil.toCoreException` and `CloudErrorUtil.getV2ValidationErrorMessage` are not part of this model; they are given functions.
- The `CloudFoundrySpace` class is not part of this model. `SpaceLookup.Wrap` assumes that wrapping a platform space takes its organisation and space names and keeps the space.
- An exception's cause is reduced to one flag: whether it is an `IOException`.
- Progress monitors and `SubMonitor` task text play no part in the logic and are left out.
- `CaldecottUIHelper.java` (UI jobs, wizards, dialogs) and `DeploymentInfoWorkingCopy.java` (a constructor choosing between two deployment-info objects) hold no core logic and are not modelled.
- `CredentialsStore.GetServerId` is a plain accessor with no contract. That it neither initialises nor touches the backend is structural: it takes a state and returns only the id. `ServerIdTracksFlush` states what it answers.
- `CredentialsStore.SecureNode` and `CredentialsStore.New` carry no contract of their own. `SecureNode` (usable node only while the latch is open and the id is non-null) is stated through `ReadProperty`, `RemoveCurrentNode`, the no-node case of `Initialize` and `DisabledIsFinal`. `New` (id set, nothing loaded, latch open) is the starting state of `FreshStoreReadsOnceLogsOnce` and `FlushThenReload`.
- Secure-storage failures other than `get`/`put`: obtaining a node (`node(...)`) and `removeNode()` are assumed never to fail. Their failures would not be caught by the store's `StorageException` handlers, and the secure-storage API is not part of this model.
- A `put` that raises `StorageException` is assumed to store nothing, so the node keeps its previous value. `FlushSecondWriteFault` ("the node keeps its old password") rests on this assumption about the secure-storage API.

=== FILE: credentials_store.dfy ===
/**
 * A per-server credential cache in front of a secure key/value backend.
 *
 * The store holds one server id, a lazily loaded username/password pair and a
 * one-way "disabled" latch.  The backend is a map from server id to a node of
 * properties; the node name is the slash-encoded server id, and since that
 * encoding is injective the model keys nodes by the id itself.
 *
 * Everything the store does to the outside world is appended to a trace of
 * events, in order: property reads and writes, node removals and error-log
 * entries.  Which reads and writes raise a storage fault is decided by an
 * oracle: the set of trace positions at which the read or write issued there
 * fails.  Every fault schedule is thereby covered by quantifying over the set.
 */
module CredentialsStore {
  import opened Wrappers

  /** The two properties a server's node holds. */
  datatype Key = Username | Password

  /** One backend node: property to stored value (a stored null reads back as null). */
  type Node = map<Key, Option<string>>

  /** One interaction with the outside world. */
  datatype Event =
    | Get(node: string, key: Key)
    | Put(node: string, key: Key, value: Option<string>)
    | RemoveNode(node: string)
    | LogError(serverId: Option<string>)

  datatype Kind = GetKind | PutKind | RemoveKind | LogKind

  function KindOf(e: Event): Kind {
    match e
    case Get(_, _) => GetKind
    case Put(_, _, _) => PutKind
    case RemoveNode(_) => RemoveKind
    case LogError(_) => LogKind
  }

  /** The kinds of the events of `t`, in order. */
  function Kinds(t: seq<Event>): seq<Kind> {
    seq(|t|, i requires 0 <= i < |t| => KindOf(t[i]))
  }

  /** Number of events of kind `k` in `t`. */
  function Count(t: seq<Event>, k: Kind): nat {
    multiset(Kinds(t))[k]
  }

  lemma CountSnoc(t: seq<Event>, e: Event)
    ensures forall k :: Count(t + [e], k) == Count(t, k) + (if KindOf(e) == k then 1 else 0)
  {
    assert Kinds(t + [e]) == Kinds(t) + [KindOf(e)];
  }

  /**
   * The secure-storage backend: its nodes, the fault oracle (trace positions
   * at which a get or put fails) and the trace of events so far.
   */
  datatype Backend = Backend(nodes: map<string, Node>, faults: set<nat>, trace: seq<Event>)

  /** The fields of one store object. */
  datatype Cache = Cache(
    serverId: Option<string>,
    initialized: bool,
    username: Option<string>,
    password: Option<string>,
    disabled: bool)

  /** A store object together with the backend it talks to. */
  datatype State = State(cache: Cache, backend: Backend)

  /** The value an accessor returns and the state after the call. */
  datatype Answer<T> = Answer(value: T, state: State)

  /** A freshly constructed store: nothing loaded, latch open. */
  function New(serverId: Option<string>, backend: Backend): State {
    State(Cache(serverId, false, None, None, false), backend)
  }

  /** The value a node lookup yields; an absent node or property reads as null. */
  function Stored(nodes: map<string, Node>, id: string, key: Key): Option<string> {
    if id in nodes && key in nodes[id] then nodes[id][key] else None
  }

  /** The node the store may use, if any: none once disabled or while unbound. */
  function SecureNode(c: Cache): Option<string> {
    if !c.disabled && c.serverId.Some? then c.serverId else None
  }

  /** Does the get or put issued next raise a storage fault? */
  predicate NextAccessFaults(b: Backend) {
    |b.trace| in b.faults
  }

  function Record(s: State, e: Event): State {
    s.(backend := s.backend.(trace := s.backend.trace + [e]))
  }

  /**
   * Closes the latch; the error is logged only by the call that closes it.
   */
  function Disable(s: State): (r: State)
    ensures r.cache == s.cache.(disabled := true)
    ensures r.backend.nodes == s.backend.nodes && r.backend.faults == s.backend.faults
    ensures s.backend.trace <= r.backend.trace
    ensures Count(r.backend.trace, LogKind) == Count(s.backend.trace, LogKind) + (if s.cache.disabled then 0 else 1)
    ensures forall k :: k != LogKind ==> Count(r.backend.trace, k) == Count(s.backend.trace, k)
  {
    if s.cache.disabled then s
    else
      var e := LogError(s.cache.serverId);
      CountSnoc(s.backend.trace, e);
      Record(s.(cache := s.cache.(disabled := true)), e)
  }

  /**
   * Reads one property from the store's node.  Without a usable node the
   * backend is not contacted; a faulting read closes the latch and yields null.
   */
  function ReadProperty(s: State, key: Key): (r: Answer<Option<string>>)
    ensures r.state.backend.nodes == s.backend.nodes && r.state.backend.faults == s.backend.faults
    ensures SecureNode(s.cache).None? ==> r == Answer(None, s)
    ensures SecureNode(s.cache).Some? ==>
      && r.state.cache == s.cache.(disabled := NextAccessFaults(s.backend))
      && r.value == (if NextAccessFaults(s.backend) then None
                     else Stored(s.backend.nodes, s.cache.serverId.value, key))
      && s.backend.trace + [Get(s.cache.serverId.value, key)] <= r.state.backend.trace
  {
    match SecureNode(s.cache)
    case None => Answer(None, s)
    case Some(id) =>
      var s1 := Record(s, Get(id, key));
      if NextAccessFaults(s.backend) then
        Answer(None, Disable(s1))
      else Answer(Stored(s.backend.nodes, id, key), s1)
  }

  /**
   * Lazy initialisation: the first call marks the store initialised and then
   * reads the username and the password; every later call does nothing.
   */
  function Initialize(s: State): (r: State)
    ensures r.cache.initialized
    ensures s.cache.initialized ==> r == s
    ensures r.cache.serverId == s.cache.serverId
    ensures r.backend.nodes == s.backend.nodes && r.backend.faults == s.backend.faults
    ensures s.cache.disabled ==> r.cache.disabled
    // loads what is persisted when neither read faults
    ensures !s.cache.initialized && SecureNode(s.cache).Some?
            && |s.backend.trace| !in s.backend.faults && |s.backend.trace| + 1 !in s.backend.faults ==>
      && r.cache.username == Stored(s.backend.nodes, s.cache.serverId.value, Username)
      && r.cache.password == Stored(s.backend.nodes, s.cache.serverId.value, Password)
      && !r.cache.disabled
      && r.backend.trace == s.backend.trace + [Get(s.cache.serverId.value, Username), Get(s.cache.serverId.value, Password)]
    // a fault on the username read skips the password read
    ensures !s.cache.initialized && SecureNode(s.cache).Some? && NextAccessFaults(s.backend) ==>
      && r.cache.username == None && r.cache.password == None && r.cache.disabled
      && r.backend.trace == s.backend.trace + [Get(s.cache.serverId.value, Username), LogError(s.cache.serverId)]
    // a fault on the password read keeps the username already read
    ensures !s.cache.initialized && SecureNode(s.cache).Some?
            && |s.backend.trace| !in s.backend.faults && |s.backend.trace| + 1 in s.backend.faults ==>
      && r.cache.username == Stored(s.backend.nodes, s.cache.serverId.value, Username)
      && r.cache.password == None && r.cache.disabled
      && r.backend.trace == s.backend.trace + [Get(s.cache.serverId.value, Username), Get(s.cache.serverId.value, Password), LogError(s.cache.serverId)]
    // without a usable node nothing is read and both values are null
    ensures !s.cache.initialized && SecureNode(s.cache).None? ==>
      && r.cache == s.cache.(initialized := true, username := None, password := None)
      && r.backend == s.backend
  {
    if s.cache.initialized then s
    else
      var s1 := s.(cache := s.cache.(initialized := true));
      var u := ReadProperty(s1, Username);
      var s2 := u.state.(cache := u.state.cache.(username := u.value));
      var p := ReadProperty(s2, Password);
      p.state.(cache := p.state.cache.(password := p.value))
  }

  /** getUsername: initialises, then returns the cached username. */
  function GetUsername(s: State): (r: Answer<Option<string>>)
    ensures r.state.cache.initialized
    ensures s.cache.initialized ==> r == Answer(s.cache.username, s)
    ensures r.state.backend.nodes == s.backend.nodes
    // the first call is the load itself, and answers what it loaded
    ensures r.state == Initialize(s) && r.value == Initialize(s).cache.username
  {
    var s1 := Initialize(s);
    Answer(s1.cache.username, s1)
  }

  /** getPassword: initialises, then returns the cached password. */
  function GetPassword(s: State): (r: Answer<Option<string>>)
    ensures r.state.cache.initialized
    ensures s.cache.initialized ==> r == Answer(s.cache.password, s)
    ensures r.state.backend.nodes == s.backend.nodes
    // the first call is the load itself, and answers what it loaded
    ensures r.state == Initialize(s) && r.value == Initialize(s).cache.password
  {
    var s1 := Initialize(s);
    Answer(s1.cache.password, s1)
  }

  /** setUsername: initialises first, so a later load cannot overwrite `v`. */
  function SetUsername(s: State, v: Option<string>): (r: State)
    ensures r.cache.initialized && r.cache.username == v
    ensures r.cache.password == Initialize(s).cache.password
    ensures s.cache.initialized ==> r == s.(cache := s.cache.(username := v))
    // besides the load, only the cached username changes: nothing is persisted
    ensures r.backend == Initialize(s).backend && r.cache == Initialize(s).cache.(username := v)
  {
    var s1 := Initialize(s);
    s1.(cache := s1.cache.(username := v))
  }

  /** setPassword: initialises first, so a later load cannot overwrite `v`. */
  function SetPassword(s: State, v: Option<string>): (r: State)
    ensures r.cache.initialized && r.cache.password == v
    ensures r.cache.username == Initialize(s).cache.username
    ensures s.cache.initialized ==> r == s.(cache := s.cache.(password := v))
    // besides the load, only the cached password changes: nothing is persisted
    ensures r.backend == Initialize(s).backend && r.cache == Initialize(s).cache.(password := v)
  {
    var s1 := Initialize(s);
    s1.(cache := s1.cache.(password := v))
  }

  /** getServerId: the bound id; it neither initialises nor touches the backend. */
  function GetServerId(s: State): Option<string> {
    s.cache.serverId
  }

  /** Removes the node of the currently bound id, when the store may use one. */
  function RemoveCurrentNode(s: State): (r: State)
    ensures r.cache == s.cache && r.backend.faults == s.backend.faults
    ensures SecureNode(s.cache).None? ==> r == s
    ensures SecureNode(s.cache).Some? ==>
      && r.backend.nodes == s.backend.nodes - {s.cache.serverId.value}
      && r.backend.trace == s.backend.trace + [RemoveNode(s.cache.serverId.value)]
  {
    match SecureNode(s.cache)
    case None => s
    case Some(id) =>
      var s1 := Record(s, RemoveNode(id));
      s1.(backend := s1.backend.(nodes := s.backend.nodes - {id}))
  }

  /** Writes one property; the result says whether the write went through. */
  function PutProperty(s: State, id: string, key: Key, v: Option<string>): (r: Answer<bool>)
    ensures r.state.cache == s.cache && r.state.backend.faults == s.backend.faults
    ensures r.value <==> !NextAccessFaults(s.backend)
    ensures r.state.backend.trace == s.backend.trace + [Put(id, key, v)]
    ensures r.value ==> Stored(r.state.backend.nodes, id, key) == v
    ensures !r.value ==> r.state.backend.nodes == s.backend.nodes
    ensures r.state.backend.nodes.Keys == s.backend.nodes.Keys + {id} || r.state.backend.nodes == s.backend.nodes
    ensures forall other :: other != id && other in s.backend.nodes ==> r.state.backend.nodes[other] == s.backend.nodes[other]
    ensures forall k :: k != key ==> Stored(r.state.backend.nodes, id, k) == Stored(s.backend.nodes, id, k)
  {
    var s1 := Record(s, Put(id, key, v));
    if NextAccessFaults(s.backend) then Answer(false, s1)
    else
      var node := if id in s.backend.nodes then s.backend.nodes[id] else map[];
      Answer(true, s1.(backend := s1.backend.(nodes := s.backend.nodes[id := node[key := v]])))
  }

  /** Is `flush(newId)` a rebinding to another id (the old id being non-null)? */
  predicate Rebinds(s: State, newId: Option<string>) {
    s.cache.serverId.Some? && s.cache.serverId != newId
  }

  /** The state `flush(newId)` writes from: after the clean-up of a rebinding, rebound to `newId`. */
  function Rebound(s: State, newId: Option<string>): (r: State)
    ensures r.cache.serverId == newId
    ensures Rebinds(s, newId) ==> r.cache == Initialize(s).cache.(serverId := newId)
    ensures Rebinds(s, newId) && !Initialize(s).cache.disabled ==> r.backend.nodes == s.backend.nodes - {s.cache.serverId.value}
    ensures Rebinds(s, newId) && Initialize(s).cache.disabled ==> r.backend.nodes == s.backend.nodes
    ensures !Rebinds(s, newId) ==> r == s.(cache := s.cache.(serverId := newId))
  {
    var s1 := if Rebinds(s, newId) then RemoveCurrentNode(Initialize(s)) else s;
    s1.(cache := s1.cache.(serverId := newId))
  }

  /**
   * flush: when rebinding, initialise and delete the old id's node; then bind
   * `newId` and write the cached username and password under it.  A fault
   * closes the latch and makes the call answer false; it never throws.
   */
  function Flush(s: State, newId: Option<string>): (r: Answer<bool>)
    ensures r.state.cache.serverId == newId
    ensures r.value <==> newId.Some? && !r.state.cache.disabled
    // on success the cached credentials are what the new node holds
    ensures r.value ==>
      && Stored(r.state.backend.nodes, newId.value, Username) == r.state.cache.username
      && Stored(r.state.backend.nodes, newId.value, Password) == r.state.cache.password
    // a rebinding loads first, so the credentials written are the loaded or set ones
    ensures Rebinds(s, newId) ==>
      && r.state.cache.initialized
      && r.state.cache.username == Initialize(s).cache.username
      && r.state.cache.password == Initialize(s).cache.password
    ensures Rebinds(s, newId) && !Initialize(s).cache.disabled ==> s.cache.serverId.value !in r.state.backend.nodes
    // otherwise nothing is loaded or removed and whatever is cached is written
    ensures !Rebinds(s, newId) ==>
      && r.state.cache.initialized == s.cache.initialized
      && r.state.cache.username == s.cache.username
      && r.state.cache.password == s.cache.password
      && s.backend.nodes.Keys <= r.state.backend.nodes.Keys
    // nodes of every other id are left alone
    ensures forall id :: Some(id) != s.cache.serverId && Some(id) != newId ==>
      && (id in r.state.backend.nodes <==> id in s.backend.nodes)
      && (id in s.backend.nodes ==> r.state.backend.nodes[id] == s.backend.nodes[id])
    // with a usable node after the clean-up half, success is exactly "neither put faulted"
    ensures var w := Rebound(s, newId);
      SecureNode(w.cache).Some? ==>
        (r.value <==> |w.backend.trace| !in w.backend.faults && |w.backend.trace| + 1 !in w.backend.faults)
    ensures s.cache.disabled ==> r.state.backend == s.backend
  {
    WriteCache(Rebound(s, newId))
  }

  /**
   * The writing half of flush: the cached username, then the cached password,
   * into the node of the bound id; a fault stops the writes and closes the latch.
   */
  function WriteCache(s: State): (r: Answer<bool>)
    ensures r.state.cache == s.cache || r.state.cache == s.cache.(disabled := true)
    ensures r.value <==> SecureNode(s.cache).Some? && !r.state.cache.disabled
    ensures r.value ==>
      && Stored(r.state.backend.nodes, s.cache.serverId.value, Username) == s.cache.username
      && Stored(r.state.backend.nodes, s.cache.serverId.value, Password) == s.cache.password
    ensures SecureNode(s.cache).None? ==> r.state == s
    // with a usable node, success is exactly "neither put faulted"
    ensures SecureNode(s.cache).Some? ==>
      (r.value <==> |s.backend.trace| !in s.backend.faults && |s.backend.trace| + 1 !in s.backend.faults)
    ensures s.backend.nodes.Keys <= r.state.backend.nodes.Keys
    ensures forall id :: Some(id) != s.cache.serverId ==>
      && (id in r.state.backend.nodes <==> id in s.backend.nodes)
      && (id in s.backend.nodes ==> r.state.backend.nodes[id] == s.backend.nodes[id])
  {
    match SecureNode(s.cache)
    case None => Answer(false, s)
    case Some(id) =>
      var w1 := PutProperty(s, id, Username, s.cache.username);
      if !w1.value then Answer(false, Disable(w1.state))
      else
        var w2 := PutProperty(w1.state, id, Password, s.cache.password);
        if !w2.value then Answer(false, Disable(w2.state))
        else Answer(true, w2.state)
  }
}

=== FILE: credentials_store_properties.dfy ===
/**
 * Properties of the credential store over single calls and over arbitrary
 * sequences of calls on one store object.
 */
module CredentialsStoreProperties {
  import opened Wrappers
  import opened CredentialsStore

  /** The public operations of a store. */
  datatype Call =
    | CallGetUsername
    | CallGetPassword
    | CallSetUsername(username: Option<string>)
    | CallSetPassword(password: Option<string>)
    | CallGetServerId
    | CallFlush(newId: Option<string>)

  function Step(s: State, c: Call): State {
    match c
    case CallGetUsername => GetUsername(s).state
    case CallGetPassword => GetPassword(s).state
    case CallSetUsername(v) => SetUsername(s, v)
    case CallSetPassword(v) => SetPassword(s, v)
    case CallGetServerId => s
    case CallFlush(id) => Flush(s, id).state
  }

  function Run(s: State, cs: seq<Call>): State
    decreases |cs|
  {
    if cs == [] then s else Run(Step(s, cs[0]), cs[1..])
  }

  /**
   * What holds of every store reached from a fresh one: the error was logged
   * exactly when the latch is closed, and the backend was read in one pass at
   * most (two property reads), and not at all before initialisation.
   */
  predicate Inv(s: State) {
    && Count(s.backend.trace, LogKind) == (if s.cache.disabled then 1 else 0)
    && Count(s.backend.trace, GetKind) <= 2
    && (!s.cache.initialized ==> Count(s.backend.trace, GetKind) == 0)
  }

  // ---------------------------------------------------------------------------
  // Event counts of the building blocks

  lemma CountPair(t: seq<Event>, a: Event, b: Event, k: Kind)
    ensures Count(t + [a, b], k) == Count(t, k) + Count([a], k) + Count([b], k)
  {
    assert t + [a, b] == (t + [a]) + [b];
    CountSnoc(t, a);
    CountSnoc(t + [a], b);
    CountSnoc([], a);
    CountSnoc([], b);
  }

  lemma CountTriple(t: seq<Event>, a: Event, b: Event, c: Event, k: Kind)
    ensures Count(t + [a, b, c], k) == Count(t, k) + Count([a], k) + Count([b], k) + Count([c], k)
  {
    assert t + [a, b, c] == (t + [a, b]) + [c];
    CountPair(t, a, b, k);
    CountSnoc(t + [a, b], c);
    CountSnoc([], c);
  }

  /** What the first load adds: two reads, or the reads issued up to a fault and one log entry. */
  ghost predicate LoadAdded(t: seq<Event>, r: seq<Event>, closed: bool) {
    exists id: string ::
      || (!closed && r == t + [Get(id, Username), Get(id, Password)])
      || (closed && r == t + [Get(id, Username), LogError(Some(id))])
      || (closed && r == t + [Get(id, Username), Get(id, Password), LogError(Some(id))])
  }

  lemma LoadAddedCounts(t: seq<Event>, r: seq<Event>, closed: bool, k: Kind)
    requires LoadAdded(t, r, closed)
    ensures Count(r, k) <= Count(t, k) + (if k == GetKind then 2 else 0) + (if k == LogKind && closed then 1 else 0)
    ensures k == LogKind ==> Count(r, k) == Count(t, k) + (if closed then 1 else 0)
    ensures k == PutKind || k == RemoveKind ==> Count(r, k) == Count(t, k)
  {
    var id: string :| || (!closed && r == t + [Get(id, Username), Get(id, Password)])
                      || (closed && r == t + [Get(id, Username), LogError(Some(id))])
                      || (closed && r == t + [Get(id, Username), Get(id, Password), LogError(Some(id))]);
    var readUser, readPass, log := Get(id, Username), Get(id, Password), LogError(Some(id));
    CountSnoc([], readUser);
    CountSnoc([], readPass);
    CountSnoc([], log);
    if !closed && r == t + [readUser, readPass] {
      CountPair(t, readUser, readPass, k);
    } else if r == t + [readUser, log] {
      CountPair(t, readUser, log, k);
    } else {
      CountTriple(t, readUser, readPass, log, k);
    }
  }

  /** The first load adds at most two reads and logs exactly when it closes the latch. */
  lemma InitializeCounts(s: State)
    ensures var r := Initialize(s);
      && Count(r.backend.trace, LogKind) == Count(s.backend.trace, LogKind) + (if !s.cache.disabled && r.cache.disabled then 1 else 0)
      && Count(r.backend.trace, GetKind) <= Count(s.backend.trace, GetKind) + (if s.cache.initialized then 0 else 2)
      && Count(r.backend.trace, PutKind) == Count(s.backend.trace, PutKind)
      && Count(r.backend.trace, RemoveKind) == Count(s.backend.trace, RemoveKind)
  {
    var r := Initialize(s);
    if !s.cache.initialized && SecureNode(s.cache).Some? {
      var id := s.cache.serverId.value;
      assert LoadAdded(s.backend.trace, r.backend.trace, r.cache.disabled) by {
        assert s.cache.serverId == Some(id);
      }
      forall k: Kind {
        LoadAddedCounts(s.backend.trace, r.backend.trace, r.cache.disabled, k);
      }
    }
  }

  lemma PutPropertyCounts(s: State, id: string, key: Key, v: Option<string>)
    ensures var r := PutProperty(s, id, key, v);
      && r.state.cache == s.cache
      && r.value == !NextAccessFaults(s.backend)
      && forall k :: Count(r.state.backend.trace, k) == Count(s.backend.trace, k) + (if k == PutKind then 1 else 0)
  {
    CountSnoc(s.backend.trace, Put(id, key, v));
  }

  lemma RemoveCurrentNodeCounts(s: State)
    ensures var r := RemoveCurrentNode(s);
      && r.cache == s.cache
      && forall k :: k != RemoveKind ==> Count(r.backend.trace, k) == Count(s.backend.trace, k)
  {
    if SecureNode(s.cache).Some? {
      CountSnoc(s.backend.trace, RemoveNode(SecureNode(s.cache).value));
    }
  }

  /** The writing half of flush never reads and logs exactly when it closes the latch. */
  lemma WriteCacheCounts(s: State)
    ensures var r := WriteCache(s).state;
      && Count(r.backend.trace, LogKind) == Count(s.backend.trace, LogKind) + (if !s.cache.disabled && r.cache.disabled then 1 else 0)
      && Count(r.backend.trace, GetKind) == Count(s.backend.trace, GetKind)
  {
    if SecureNode(s.cache).Some? {
      var id := s.cache.serverId.value;
      var w1 := PutProperty(s, id, Username, s.cache.username);
      PutPropertyCounts(s, id, Username, s.cache.username);
      if w1.value {
        PutPropertyCounts(w1.state, id, Password, s.cache.password);
      }
    }
  }

  /** The clean-up half of flush reads only through the load of a rebinding. */
  lemma ReboundCounts(s: State, newId: Option<string>)
    ensures var r := Rebound(s, newId);
      && Count(r.backend.trace, LogKind) == Count(s.backend.trace, LogKind) + (if !s.cache.disabled && r.cache.disabled then 1 else 0)
      && Count(r.backend.trace, GetKind) == Count((if Rebinds(s, newId) then Initialize(s) else s).backend.trace, GetKind)
  {
    InitializeCounts(s);
    RemoveCurrentNodeCounts(Initialize(s));
  }

  /** flush reads only through the load of a rebinding and logs exactly when it closes the latch. */
  lemma FlushCounts(s: State, newId: Option<string>)
    ensures var r := Flush(s, newId).state;
      && Count(r.backend.trace, LogKind) == Count(s.backend.trace, LogKind) + (if !s.cache.disabled && r.cache.disabled then 1 else 0)
      && Count(r.backend.trace, GetKind) == Count((if Rebinds(s, newId) then Initialize(s) else s).backend.trace, GetKind)
      && r.cache.initialized == (s.cache.initialized || Rebinds(s, newId))
      && (s.cache.disabled ==> r.cache.disabled)
  {
    ReboundCounts(s, newId);
    WriteCacheCounts(Rebound(s, newId));
  }

  /** One call never reopens the latch, never forgets the load and never reloads. */
  lemma StepMonotone(s: State, c: Call)
    ensures s.cache.disabled ==> Step(s, c).cache.disabled
    ensures s.cache.initialized ==> Step(s, c).cache.initialized
    ensures s.cache.initialized ==> Count(Step(s, c).backend.trace, GetKind) == Count(s.backend.trace, GetKind)
  {
    match c
    case CallFlush(id) => FlushCounts(s, id);
    case _ =>
  }

  /** One call keeps the invariant. */
  lemma StepKeepsInv(s: State, c: Call)
    requires Inv(s)
    ensures Inv(Step(s, c))
  {
    StepMonotone(s, c);
    match c
    case CallFlush(id) => FlushCounts(s, id); InitializeCounts(s);
    case CallGetServerId =>
    case _ => InitializeCounts(s);
  }

  // ---------------------------------------------------------------------------
  // Sequences of calls

  /** Every store reachable from one satisfying the invariant satisfies it. */
  lemma {:induction false} RunKeepsInv(s: State, cs: seq<Call>)
    requires Inv(s)
    ensures Inv(Run(s, cs))
    decreases |cs|
  {
    if cs != [] {
      StepKeepsInv(s, cs[0]);
      RunKeepsInv(Step(s, cs[0]), cs[1..]);
    }
  }

  /**
   * Whatever calls are made on a fresh store, under any fault schedule: the
   * backend is read in one pass at most, and the error is logged at most
   * once, exactly when the latch has closed.
   */
  lemma {:induction false} FreshStoreReadsOnceLogsOnce(id: Option<string>, b: Backend, cs: seq<Call>)
    requires b.trace == []
    ensures var r := Run(New(id, b), cs);
      && Count(r.backend.trace, GetKind) <= 2
      && Count(r.backend.trace, LogKind) <= 1
      && (Count(r.backend.trace, LogKind) == 1 <==> r.cache.disabled)
  {
    var s := New(id, b);
    assert Count(s.backend.trace, LogKind) == 0 && Count(s.backend.trace, GetKind) == 0;
    RunKeepsInv(s, cs);
  }

  /** Once initialised, no sequence of calls reads the backend again. */
  lemma {:induction false} InitializedNeverRereads(s: State, cs: seq<Call>)
    requires s.cache.initialized
    ensures Run(s, cs).cache.initialized
    ensures Count(Run(s, cs).backend.trace, GetKind) == Count(s.backend.trace, GetKind)
    decreases |cs|
  {
    if cs != [] {
      StepMonotone(s, cs[0]);
      InitializedNeverRereads(Step(s, cs[0]), cs[1..]);
    }
  }

  /** Once the latch is closed, no sequence of calls touches the backend or logs again. */
  lemma {:induction false} DisabledIsFinal(s: State, cs: seq<Call>)
    requires s.cache.disabled
    ensures Run(s, cs).cache.disabled
    ensures Run(s, cs).backend == s.backend
    decreases |cs|
  {
    if cs != [] {
      DisabledIsFinal(Step(s, cs[0]), cs[1..]);
    }
  }

  /** Once the latch is closed, the getters answer from memory: null if never loaded. */
  lemma DisabledGettersAnswerCache(s: State)
    requires s.cache.disabled
    ensures GetUsername(s).value == (if s.cache.initialized then s.cache.username else None)
    ensures GetPassword(s).value == (if s.cache.initialized then s.cache.password else None)
    ensures GetUsername(s).state.backend == s.backend && GetPassword(s).state.backend == s.backend
  {
  }

  /** The bound id changes only by flush, to the id flushed to. */
  lemma ServerIdTracksFlush(s: State, c: Call)
    ensures GetServerId(Step(s, c)) == (if c.CallFlush? then c.newId else GetServerId(s))
  {
  }

  // ---------------------------------------------------------------------------
  // Setters and getters

  /**
   * A set username is what the getter returns next, the getter then does not
   * touch the backend, and the password answer is the one before the set.
   */
  lemma SetUsernameThenGet(s: State, v: Option<string>)
    ensures GetUsername(SetUsername(s, v)) == Answer(v, SetUsername(s, v))
    ensures GetPassword(SetUsername(s, v)).value == GetPassword(s).value
  {
  }

  /** The mirror image of SetUsernameThenGet. */
  lemma SetPasswordThenGet(s: State, v: Option<string>)
    ensures GetPassword(SetPassword(s, v)) == Answer(v, SetPassword(s, v))
    ensures GetUsername(SetPassword(s, v)).value == GetUsername(s).value
  {
  }

  // ---------------------------------------------------------------------------
  // flush

  lemma ReboundEvents(s: State, newId: Option<string>)
    ensures var t := Rebound(s, newId).backend.trace;
      && s.backend.trace <= t
      && (forall i | |s.backend.trace| <= i < |t| :: !t[i].Put?)
      && (forall i | |s.backend.trace| <= i < |t| - 1 :: !t[i].RemoveNode?)
      && (Rebinds(s, newId) && !Initialize(s).cache.disabled ==> t[|t| - 1] == RemoveNode(s.cache.serverId.value))
  {
  }

  /** The writing half of flush only writes and logs. */
  lemma WriteCacheEvents(s: State)
    ensures var t := WriteCache(s).state.backend.trace; var m := |s.backend.trace|;
      && s.backend.trace <= t
      && forall j | m <= j < |t| :: t[j].Put? || t[j].LogError?
  {
  }

  /**
   * flush deletes the old id's node before writing anything; when a
   * rebinding loads without fault, the deletion does happen.
   */
  lemma FlushRemovesBeforeWriting(s: State, newId: Option<string>)
    ensures var t := Flush(s, newId).state.backend.trace; var n := |s.backend.trace|;
      && s.backend.trace <= t
      && (forall i, j | n <= i < |t| && n <= j < |t| && t[i].RemoveNode? && t[j].Put? :: i < j)
      && (Rebinds(s, newId) && !Initialize(s).cache.disabled ==>
            exists i | n <= i < |t| :: t[i] == RemoveNode(s.cache.serverId.value))
  {
    var t0 := Rebound(s, newId).backend.trace;
    var t := Flush(s, newId).state.backend.trace;
    var n := |s.backend.trace|;
    ReboundEvents(s, newId);
    WriteCacheEvents(Rebound(s, newId));
    if Rebinds(s, newId) && !Initialize(s).cache.disabled {
      assert t[|t0| - 1] == t0[|t0| - 1];
    }
  }

  /** flush on a store that is not rebound and was never loaded writes nulls. */
  lemma FlushBeforeLoadWritesNulls(s: State, newId: Option<string>)
    requires !s.cache.initialized && !Rebinds(s, newId)
    requires s.cache.username == None && s.cache.password == None
    ensures var r := Flush(s, newId);
      r.value ==> (&& Stored(r.state.backend.nodes, newId.value, Username) == None
                   && Stored(r.state.backend.nodes, newId.value, Password) == None)
    ensures !Flush(s, newId).state.cache.initialized
  {
  }

  /**
   * When the second write faults, the first one stays done: the node holds
   * the new username next to the password it held before.
   */
  lemma FlushSecondWriteFault(s: State, newId: Option<string>)
    requires newId.Some? && SecureNode(Rebound(s, newId).cache).Some?
    requires |Rebound(s, newId).backend.trace| !in s.backend.faults
    requires |Rebound(s, newId).backend.trace| + 1 in s.backend.faults
    ensures var r := Flush(s, newId); var n := Rebound(s, newId).backend.nodes;
      && !r.value && r.state.cache.disabled
      && Stored(r.state.backend.nodes, newId.value, Username) == r.state.cache.username
      && Stored(r.state.backend.nodes, newId.value, Password) == Stored(n, newId.value, Password)
  {
  }

  /**
   * Round trip: after a successful flush to `id`, a fresh store bound to `id`
   * over the same nodes loads exactly the credentials that were flushed.
   */
  lemma FlushThenReload(s: State, id: string, faults: set<nat>)
    requires Flush(s, Some(id)).value
    requires 0 !in faults && 1 !in faults
    ensures var r := Flush(s, Some(id)).state;
      var reload := New(Some(id), Backend(r.backend.nodes, faults, []));
      && GetUsername(reload).value == r.cache.username
      && GetPassword(reload).value == r.cache.password
  {
  }

  /**
   * Migration: a successful rebinding flush moves the credentials (loaded or
   * set) from the old id's node to the new one, and the old node is gone.
   */
  lemma FlushMigrates(s: State, id: string, faults: set<nat>)
    requires Rebinds(s, Some(id)) && Flush(s, Some(id)).value
    requires 0 !in faults && 1 !in faults
    ensures var r := Flush(s, Some(id)).state;
      var reload := New(Some(id), Backend(r.backend.nodes, faults, []));
      && s.cache.serverId.value !in r.backend.nodes
      && GetUsername(reload).value == Initialize(s).cache.username
      && GetPassword(reload).value == Initialize(s).cache.password
  {
  }
}

=== FILE: space_lookup.dfy ===
/**
 * Resolving a server's partly known cloud space against the organisations
 * and spaces discovered on the remote platform, and the rules by which
 * faults are reclassified on the way out.
 *
 * Remote work (creating a client, logging in, listing spaces or
 * applications) is not performed: each call's outcome is a parameter, and
 * the calls the lookup would make are returned, in order, as `contacts`.
 * The catalogue query and the two error utilities whose code is not part of
 * this model are supplied as given functions (`Given`).
 */
module SpaceLookup {
  import opened Wrappers

  /** A space as the platform describes it. */
  datatype CloudSpace = CloudSpace(orgName: string, name: string, guid: string)

  /** The server's space: its organisation and space names, and the platform's space once resolved. */
  datatype SpaceDescriptor = SpaceDescriptor(orgName: string, spaceName: string, space: Option<CloudSpace>)

  /** The descriptor wrapping a space found on the platform. */
  function Wrap(cs: CloudSpace): SpaceDescriptor {
    SpaceDescriptor(cs.orgName, cs.name, Some(cs))
  }

  /** The catalogue of discovered organisations and spaces. */
  datatype OrgsAndSpaces = OrgsAndSpaces(spaces: seq<CloudSpace>)

  /** An application as the platform lists it. */
  datatype CloudApplication = CloudApplication(name: string)

  /** Login credentials; either part may be null. */
  datatype Credentials = Credentials(email: Option<string>, password: Option<string>)

  /** What the lookup reads from the server definition. */
  datatype Server = Server(
    url: string,
    username: Option<string>,
    password: Option<string>,
    hasCloudSpace: bool,
    cloudSpace: Option<SpaceDescriptor>)

  /**
   * Unchecked exceptions the client can raise.  A CloudFoundryException is a
   * RestClientException; both are told apart from any other runtime exception.
   */
  datatype RuntimeKind = CloudFoundryFault | RestClientFault | OtherRuntimeFault

  /** An unchecked exception: its class, message, and whether its cause is an I/O exception. */
  datatype RuntimeFault = RuntimeFault(kind: RuntimeKind, message: string, ioCause: bool)

  /** A checked (core) exception: its status message and the fault it was made from, if any. */
  datatype CoreError = CoreError(message: string, origin: Option<RuntimeFault>)

  /** Anything thrown out of the lookup. */
  datatype Failure = Core(error: CoreError) | Unchecked(fault: RuntimeFault)

  datatype Result<T> = Ok(value: T) | Err(failure: Failure)

  /** The outcome of the login handshake. */
  datatype Login = LoggedIn | LoginFailed(failure: Failure)

  /** The outcome of a listing call: a possibly null list, or an unchecked exception. */
  datatype Listing<T> = Listed(items: Option<seq<T>>) | ListingThrew(fault: RuntimeFault)

  /** A call the lookup makes to the platform. */
  datatype Contact =
    | CreateClient(url: string, credentials: Credentials)
    | LoginAttempt(url: string)
    | GetSpaces
    | GetApplications

  /** An entry written to the plugin log. */
  datatype LogEntry = ParseError(cause: RuntimeFault)

  /** A result, the platform calls made to reach it, and the log entries written. */
  datatype Outcome<T> = Outcome(result: Result<T>, contacts: seq<Contact>, log: seq<LogEntry>)

  /**
   * The collaborators whose code is not part of this model: the catalogue
   * query by organisation and space name, the conversion of a client fault
   * into a core error, and the extraction of a platform validation message.
   */
  datatype Given = Given(
    getSpace: (OrgsAndSpaces, string, string) -> Option<CloudSpace>,
    toCoreException: RuntimeFault -> CoreError,
    validationMessage: CoreError -> Option<string>)

  const UnableToCommunicate := "Unable to communicate with server"

  function NoSpaceMessage(url: string): string {
    "Expected a cloud space for " + url + " but none were found."
  }

  /** The error raised when a server that uses spaces ends up without one. */
  function NoSpaceFound(url: string): Failure {
    Core(CoreError(NoSpaceMessage(url), None))
  }

  // ---------------------------------------------------------------------------
  // Discovery

  /** A null or empty listing gives no catalogue; otherwise the catalogue holds a copy of it. */
  function Catalogue(listing: Option<seq<CloudSpace>>): (r: Option<OrgsAndSpaces>)
    ensures r.None? <==> listing.None? || listing.value == []
    ensures r.Some? ==> r.value.spaces == listing.value
  {
    match listing
    case None => None
    case Some(spaces) => if |spaces| == 0 then None else Some(OrgsAndSpaces(spaces))
  }

  /**
   * A runtime fault raised while listing spaces: one whose cause is an I/O
   * fault is logged as a parse error and replaced by the canonical
   * communication error; any other is rethrown as it is, unlogged.
   */
  function ReclassifyListingFault(f: RuntimeFault): (r: Outcome<Option<OrgsAndSpaces>>)
    ensures r.result.Err?
    ensures r.result.failure.Core? <==> f.ioCause
    ensures r.result.failure.Core? ==> r.result.failure.error == CoreError(UnableToCommunicate, None)
    ensures r.result.failure.Unchecked? ==> r.result.failure.fault == f
    ensures r.log != [] <==> f.ioCause
    ensures r.log != [] ==> r.log == [ParseError(f)]
  {
    if f.ioCause then Outcome(Err(Core(CoreError(UnableToCommunicate, None))), [GetSpaces], [ParseError(f)])
    else Outcome(Err(Unchecked(f)), [GetSpaces], [])
  }

  /** Lists the spaces of a logged-in client and builds the catalogue from them. */
  function ListOrgsAndSpaces(listing: Listing<CloudSpace>): (r: Outcome<Option<OrgsAndSpaces>>)
    ensures r.contacts == [GetSpaces]
    ensures r.result.Ok? <==> listing.Listed?
    ensures r.result.Ok? ==> r.result.value == Catalogue(listing.items) && r.log == []
    // a throwing listing is answered by the I/O reclassification
    ensures listing.ListingThrew? ==> r == ReclassifyListingFault(listing.fault)
  {
    match listing
    case Listed(items) => Outcome(Ok(Catalogue(items)), [GetSpaces], [])
    case ListingThrew(f) => ReclassifyListingFault(f)
  }

  /**
   * A client fault raised by the listing itself (a CloudFoundryException or
   * RestClientException) becomes a core error; anything else passes through.
   */
  function ClientFaultToCore(fail: Failure, g: Given): (r: Failure)
    ensures fail.Core? ==> r == fail
    ensures fail.Unchecked? && fail.fault.kind == OtherRuntimeFault ==> r == fail
    ensures fail.Unchecked? && fail.fault.kind != OtherRuntimeFault ==> r == Core(g.toCoreException(fail.fault))
  {
    match fail
    case Core(_) => fail
    case Unchecked(f) => if f.kind == OtherRuntimeFault then fail else Core(g.toCoreException(f))
  }

  /**
   * The outer boundary: a core error is replaced by a fresh one carrying the
   * extracted validation message when there is one, and rethrown otherwise.
   */
  function RewriteValidation(e: CoreError, g: Given): (r: CoreError)
    ensures g.validationMessage(e).Some? ==> r == CoreError(g.validationMessage(e).value, None)
    ensures g.validationMessage(e).None? ==> r == e
  {
    match g.validationMessage(e)
    case Some(m) => CoreError(m, None)
    case None => e
  }

  /** The outer boundary applied to whatever is thrown: only core errors are rewritten. */
  function AtBoundary(fail: Failure, g: Given): (r: Failure)
    ensures fail.Unchecked? ==> r == fail
    ensures fail.Core? ==> r == Core(RewriteValidation(fail.error, g))
  {
    match fail
    case Core(e) => Core(RewriteValidation(e, g))
    case Unchecked(_) => fail
  }

  /**
   * The shape shared by both remote operations: create a client from the
   * credentials, log in, run `body`; a fault of `body` first has its client
   * faults made core errors, then every core error (the login's too) meets
   * the outer boundary.  Unchecked faults of the login are not converted.
   */
  function Session<T>(credentials: Credentials, url: string, login: Login, body: Outcome<T>, g: Given): (r: Outcome<T>)
    ensures |r.contacts| >= 2 && r.contacts[..2] == [CreateClient(url, credentials), LoginAttempt(url)]
    ensures login.LoginFailed? ==> |r.contacts| == 2 && r.log == []
    ensures login.LoggedIn? ==> r.contacts[2..] == body.contacts && r.log == body.log
    ensures r.result.Ok? <==> login.LoggedIn? && body.result.Ok?
    ensures r.result.Ok? ==> r.result == body.result
    // a failed login meets the boundary as it is; a fault of the body is converted first
    ensures login.LoginFailed? ==> r.result == Err(AtBoundary(login.failure, g))
    ensures login.LoggedIn? && body.result.Err? ==> r.result == Err(AtBoundary(ClientFaultToCore(body.result.failure, g), g))
  {
    var handshake := [CreateClient(url, credentials), LoginAttempt(url)];
    match login
    case LoginFailed(fail) => Outcome(Err(AtBoundary(fail, g)), handshake, [])
    case LoggedIn =>
      var result := match body.result
        case Ok(v) => Ok(v)
        case Err(fail) => Err(AtBoundary(ClientFaultToCore(fail, g), g));
      Outcome(result, handshake + body.contacts, body.log)
  }

  /** The organisations and spaces visible to `credentials` on the server at `url`, if any. */
  function DiscoverOrgsAndSpaces(credentials: Credentials, url: string, login: Login, listing: Listing<CloudSpace>, g: Given): (r: Outcome<Option<OrgsAndSpaces>>)
    ensures r.result.Ok? <==> login.LoggedIn? && listing.Listed?
    ensures r.result.Ok? ==> r.result.value == Catalogue(listing.items)
    ensures login.LoggedIn? ==> r.contacts == [CreateClient(url, credentials), LoginAttempt(url), GetSpaces]
    ensures listing.ListingThrew? && !listing.fault.ioCause ==> r.log == []
    // every call creates the client and logs in first; a failed login ends it there
    ensures |r.contacts| >= 2 && r.contacts[..2] == [CreateClient(url, credentials), LoginAttempt(url)]
    ensures login.LoginFailed? ==> |r.contacts| == 2 && r.log == [] && r.result == Err(AtBoundary(login.failure, g))
    // a listing fault is reclassified, then converted, then meets the boundary
    ensures login.LoggedIn? && listing.ListingThrew? ==>
      var t := ReclassifyListingFault(listing.fault);
      r.result == Err(AtBoundary(ClientFaultToCore(t.result.failure, g), g)) && r.log == t.log
  {
    Session(credentials, url, login, ListOrgsAndSpaces(listing), g)
  }

  /** The applications of every space: the client is not bound to a space. */
  function ListAllApps(credentials: Credentials, url: string, login: Login, apps: Listing<CloudApplication>, g: Given): (r: Outcome<Option<seq<CloudApplication>>>)
    ensures r.result.Ok? <==> login.LoggedIn? && apps.Listed?
    ensures r.result.Ok? ==> r.result.value == apps.items
    ensures login.LoggedIn? ==> r.contacts == [CreateClient(url, credentials), LoginAttempt(url), GetApplications]
    ensures login.LoginFailed? ==> r.result == Err(AtBoundary(login.failure, g))
    ensures r.log == []
  {
    var body := match apps
      case Listed(items) => Outcome(Ok(items), [GetApplications], [])
      case ListingThrew(f) => Outcome(Err(Unchecked(f)), [GetApplications], []);
    Session(credentials, url, login, body, g)
  }

  // ---------------------------------------------------------------------------
  // The lookup object

  /** A lookup for one server, with the credentials it has settled on so far. */
  datatype Lookup = Lookup(server: Server, credentials: Option<Credentials>)

  datatype WithLookup<T> = WithLookup(value: T, lookup: Lookup)

  /** The credentials to log in with: those given, or else the server's, remembered from then on. */
  function GetCredentials(l: Lookup): (r: WithLookup<Credentials>)
    ensures r.lookup.server == l.server && r.lookup.credentials == Some(r.value)
    ensures l.credentials.Some? ==> r == WithLookup(l.credentials.value, l)
    ensures l.credentials.None? ==> r.value == Credentials(l.server.username, l.server.password)
  {
    match l.credentials
    case Some(c) => WithLookup(c, l)
    case None =>
      var c := Credentials(l.server.username, l.server.password);
      WithLookup(c, l.(credentials := Some(c)))
  }

  /** The instance form of discovery: the server's url and the lookup's credentials. */
  function GetCloudOrgsAndSpaces(l: Lookup, login: Login, listing: Listing<CloudSpace>, g: Given): (r: WithLookup<Outcome<Option<OrgsAndSpaces>>>)
    ensures r.lookup == GetCredentials(l).lookup
    ensures |r.value.contacts| > 0 && r.value.contacts[0] == CreateClient(l.server.url, GetCredentials(l).value)
    // the answer is discovery with the settled credentials against the server's url
    ensures r.value == DiscoverOrgsAndSpaces(GetCredentials(l).value, l.server.url, login, listing, g)
  {
    var c := GetCredentials(l);
    WithLookup(DiscoverOrgsAndSpaces(c.value, l.server.url, login, listing, g), c.lookup)
  }

  /** The instance form of listing every application. */
  function GetAllOrgApps(l: Lookup, login: Login, apps: Listing<CloudApplication>, g: Given): (r: WithLookup<Outcome<Option<seq<CloudApplication>>>>)
    ensures r.lookup == GetCredentials(l).lookup
    ensures |r.value.contacts| > 0 && r.value.contacts[0] == CreateClient(l.server.url, GetCredentials(l).value)
    // the answer is the application listing with the settled credentials against the server's url
    ensures r.value == ListAllApps(GetCredentials(l).value, l.server.url, login, apps, g)
  {
    var c := GetCredentials(l);
    WithLookup(ListAllApps(c.value, l.server.url, login, apps, g), c.lookup)
  }

  /** Does the server use spaces but know only the names of its space? */
  predicate Unresolved(s: Server) {
    s.hasCloudSpace && s.cloudSpace.Some? && s.cloudSpace.value.space.None?
  }

  /**
   * The server's cloud space.  A server without spaces gets null and a
   * resolved descriptor is returned as it is, neither contacting the
   * platform.  An unresolved one is looked up in the discovered catalogue:
   * a match is returned wrapped, a missing match (or a server that uses
   * spaces but has no descriptor) raises the no-space error, and when
   * discovery yields no catalogue the unresolved descriptor is returned.
   */
  function GetCloudSpace(l: Lookup, login: Login, listing: Listing<CloudSpace>, g: Given): (r: WithLookup<Outcome<Option<SpaceDescriptor>>>)
    // null exactly for servers without spaces
    ensures r.value.result == Ok(None) <==> !l.server.hasCloudSpace
    // the platform is contacted, and the credentials settled, only for an unresolved descriptor
    ensures r.value.contacts != [] <==> Unresolved(l.server)
    ensures !Unresolved(l.server) ==> r.lookup == l && r.value.log == []
    ensures Unresolved(l.server) ==> r.lookup == GetCredentials(l).lookup
    ensures Unresolved(l.server) ==> |r.value.contacts| > 0 && r.value.contacts[0] == CreateClient(l.server.url, GetCredentials(l).value)
    // a descriptor returned is resolved, or is the server's own
    ensures r.value.result.Ok? && r.value.result.value.Some? ==>
      r.value.result.value.value.space.Some? || r.value.result.value == l.server.cloudSpace
    // a server with spaces but no descriptor always fails, with the no-space error
    ensures l.server.hasCloudSpace && l.server.cloudSpace.None? ==> r.value.result == Err(NoSpaceFound(l.server.url))
  {
    var server := l.server;
    if !server.hasCloudSpace then WithLookup(Outcome(Ok(None), [], []), l)
    else if !Unresolved(server) then WithLookup(Outcome(Settle(server.cloudSpace, server.url), [], []), l)
    else
      var d := server.cloudSpace.value;
      var found := GetCloudOrgsAndSpaces(l, login, listing, g);
      var discovery := found.value;
      var result := match discovery.result
        case Err(fail) => Err(fail)
        case Ok(None) => Settle(Some(d), server.url)
        case Ok(Some(catalogue)) =>
          match g.getSpace(catalogue, d.orgName, d.spaceName)
          case Some(cs) => Settle(Some(Wrap(cs)), server.url)
          case None => Settle(None, server.url);
      WithLookup(Outcome(result, discovery.contacts, discovery.log), found.lookup)
  }

  /** The final check of a server that uses spaces: no descriptor is an error. */
  function Settle(d: Option<SpaceDescriptor>, url: string): (r: Result<Option<SpaceDescriptor>>)
    ensures r.Ok? <==> d.Some?
    ensures r.Ok? ==> r.value == d
    ensures r.Err? ==> r == Err(NoSpaceFound(url))
  {
    if d.None? then Err(NoSpaceFound(url)) else Ok(d)
  }
}

=== FILE: space_lookup_properties.dfy ===
/**
 * Properties of space resolution, stated over the raw outcomes of the
 * remote calls.
 */
module SpaceLookupProperties {
  import opened Wrappers
  import opened SpaceLookup

  /** The descriptor the server asks to resolve. */
  function Wanted(l: Lookup): SpaceDescriptor
    requires Unresolved(l.server)
  {
    l.server.cloudSpace.value
  }

  /** A server without spaces yields null and contacts nobody. */
  lemma NoSpacesMeansNull(l: Lookup, login: Login, listing: Listing<CloudSpace>, g: Given)
    requires !l.server.hasCloudSpace
    ensures GetCloudSpace(l, login, listing, g) == WithLookup(Outcome(Ok(None), [], []), l)
  {
  }

  /** A descriptor that already carries a space is returned as it is, without a lookup. */
  lemma ResolvedIsFastPath(l: Lookup, login: Login, listing: Listing<CloudSpace>, g: Given)
    requires l.server.hasCloudSpace && l.server.cloudSpace.Some? && l.server.cloudSpace.value.space.Some?
    ensures GetCloudSpace(l, login, listing, g) == WithLookup(Outcome(Ok(l.server.cloudSpace), [], []), l)
  {
  }

  /** A matching space in a non-empty listing is returned, wrapped in a new descriptor. */
  lemma FoundSpaceIsWrapped(l: Lookup, items: seq<CloudSpace>, g: Given, cs: CloudSpace)
    requires Unresolved(l.server) && items != []
    requires g.getSpace(OrgsAndSpaces(items), Wanted(l).orgName, Wanted(l).spaceName) == Some(cs)
    ensures var r := GetCloudSpace(l, LoggedIn, Listed(Some(items)), g).value;
      && r.result == Ok(Some(Wrap(cs)))
      && r.contacts == [CreateClient(l.server.url, GetCredentials(l).value), LoginAttempt(l.server.url), GetSpaces]
      && r.log == []
  {
  }

  /** A non-empty listing without the wanted pair raises the no-space error. */
  lemma MissingSpaceFails(l: Lookup, items: seq<CloudSpace>, g: Given)
    requires Unresolved(l.server) && items != []
    requires g.getSpace(OrgsAndSpaces(items), Wanted(l).orgName, Wanted(l).spaceName).None?
    ensures GetCloudSpace(l, LoggedIn, Listed(Some(items)), g).value.result == Err(NoSpaceFound(l.server.url))
  {
  }

  /**
   * A null or empty listing gives no catalogue, and then the unresolved
   * descriptor itself is returned: nothing is thrown.
   */
  lemma NoCatalogueKeepsDescriptor(l: Lookup, items: Option<seq<CloudSpace>>, g: Given)
    requires Unresolved(l.server)
    requires items.None? || items.value == []
    ensures GetCloudSpace(l, LoggedIn, Listed(items), g).value.result == Ok(l.server.cloudSpace)
  {
  }

  /** A failed login ends the lookup before any listing, with the login's fault at the boundary. */
  lemma LoginFailureSkipsListing(l: Lookup, fail: Failure, listing: Listing<CloudSpace>, g: Given)
    requires Unresolved(l.server)
    ensures var r := GetCloudSpace(l, LoginFailed(fail), listing, g).value;
      && r.result == Err(AtBoundary(fail, g))
      && GetSpaces !in r.contacts
  {
  }

  /**
   * Listing faults, by kind: an I/O-caused fault becomes the communication
   * error and is logged once; a client fault becomes a core error; any other
   * fault escapes unchanged and unlogged.  Core errors then meet the boundary.
   */
  lemma ListingFaultsReclassified(l: Lookup, f: RuntimeFault, g: Given)
    requires Unresolved(l.server)
    ensures var r := GetCloudSpace(l, LoggedIn, ListingThrew(f), g).value;
      && (f.ioCause ==> r.result == Err(Core(RewriteValidation(CoreError(UnableToCommunicate, None), g))) && r.log == [ParseError(f)])
      && (!f.ioCause && f.kind != OtherRuntimeFault ==> r.result == Err(Core(RewriteValidation(g.toCoreException(f), g))) && r.log == [])
      && (!f.ioCause && f.kind == OtherRuntimeFault ==> r.result == Err(Unchecked(f)) && r.log == [])
  {
  }

  /**
   * The boundary changes a failure only by replacing a core error with one
   * that carries the extracted validation message.
   */
  lemma BoundaryReplacesOnlyWithMessage(fail: Failure, g: Given)
    ensures AtBoundary(fail, g) != fail ==> fail.Core? && g.validationMessage(fail.error).Some?
    ensures fail.Core? && g.validationMessage(fail.error).Some? ==>
      AtBoundary(fail, g) == Core(CoreError(g.validationMessage(fail.error).value, None))
    ensures fail.Core? <==> AtBoundary(fail, g).Core?
  {
  }

  /** Any result of discovery is logged at most once, and only for the communication error. */
  lemma DiscoveryLogsOnlyCommunicationErrors(c: Credentials, url: string, login: Login, listing: Listing<CloudSpace>, g: Given)
    ensures var r := DiscoverOrgsAndSpaces(c, url, login, listing, g);
      && |r.log| <= 1
      && (r.log != [] <==> login.LoggedIn? && listing.ListingThrew? && listing.fault.ioCause)
      && (r.log != [] ==> r.result == Err(AtBoundary(Core(CoreError(UnableToCommunicate, None)), g)))
  {
  }

  /** Does the catalogue query only answer spaces with the names asked for? */
  ghost predicate HonoursNames(g: Given) {
    forall c, o, n :: g.getSpace(c, o, n).Some? ==> g.getSpace(c, o, n).value.orgName == o && g.getSpace(c, o, n).value.name == n
  }

  /**
   * With a catalogue query that honours names, any descriptor returned has
   * the organisation and space names of the server's own descriptor.
   */
  lemma ResolutionKeepsNames(l: Lookup, login: Login, listing: Listing<CloudSpace>, g: Given)
    requires HonoursNames(g)
    requires l.server.cloudSpace.Some?
    ensures var r := GetCloudSpace(l, login, listing, g).value.result;
      r.Ok? && r.value.Some? ==>
        r.value.value.orgName == l.server.cloudSpace.value.orgName
        && r.value.value.spaceName == l.server.cloudSpace.value.spaceName
  {
  }

  /** Settling the credentials twice is settling them once. */
  lemma GetCredentialsIdempotent(l: Lookup)
    ensures GetCredentials(GetCredentials(l).lookup) == GetCredentials(l)
  {
  }

  /** The application listing is returned as given; its faults get no I/O reclassification. */
  lemma AllAppsFaults(c: Credentials, url: string, f: RuntimeFault, g: Given)
    ensures var r := ListAllApps(c, url, LoggedIn, ListingThrew(f), g);
      && r.log == []
      && (f.kind == OtherRuntimeFault ==> r.result == Err(Unchecked(f)))
      && (f.kind != OtherRuntimeFault ==> r.result == Err(Core(RewriteValidation(g.toCoreException(f), g))))
  {
  }
}

=== FILE: wrappers.dfy ===
/** Optional values: the model's stand-in for Java's nullable references. */
module Wrappers {

  /** `None` plays the role of `null`. */
  datatype Option<+T> = None | Some(value: T)
}
